=== FILE: README.md ===
# CRPT client admission window, in Dafny

`CrptApi` submits documents to the CRPT "create document" endpoint and limits how many submissions it makes per time window. The limit is shared by every thread that uses the same client. The window is fixed, not sliding. The client keeps two values under its monitor: `lastResetTime`, the epoch-millisecond start of the current window, and `requestCount`, the number of documents delivered in that window. A call first refuses any document flagged as an import. Then, holding the monitor, it reads the clock. If a full interval has passed since `lastResetTime`, it restarts the window: the count goes to 0 and the start becomes a fresh clock reading. While the count is at the limit, the call waits. On each wake it repeats the same expiry check. Once it is under the limit, it serializes and sends the document, and it increments the count only if a response body comes back.

The model has four modules:

- `RateWindow` (`window.dfy`): the configuration (`intervalMillis = unit.toMillis(1)` and an unvalidated `int` limit), the window pair, the constructor, the check run on entry and after every wake (`Recheck`), and the admission (`Admit`). The clock is an input. A `Tick` holds the reading used to compute the elapsed time and the separate later reading stored when the window restarts. The source calls `Instant.now()` twice for these.
- `CrptApi` (`crpt_api.dfy`): one `createDocument` call by a caller alone on the client. It has the import check, the entry check, a sequence of wakes (each a later tick or an interrupt), and the transmit step. The transmit step is an input that yields either a body or a fault. `Object.wait` rejects a negative timeout with an exception, and the model includes that error path.
- `Interleaving` (`interleaving.dfy`): many callers. The state is touched only with the monitor held, and a caller releases the monitor only inside `wait`. So any execution is a sequence of locked turns, and each turn is a check followed by either a wait or an admission. This module proves that the capacity invariant holds on every turn, that at most `limit` documents are delivered between two restarts, and that the window start never moves backwards under a non-decreasing clock.
- `SoloCaller` (`solo_caller.dfy`): connects the two views. For any limit, a lone caller's call takes exactly the turns of the interleaving view over its own ticks, cut after its last check. Each timeout the call hands to `wait` is the one the check of the matching turn computed.

Behaviour of the code worth noting:

- The constructor does not reject a limit of zero or less, or a zero-length window.
- There is no cancellation and no deadline.
- A failed send does not consume a slot, because the increment comes after the send.
- A limit of zero or less never admits a call: every call waits indefinitely, or fails. The timeout handed to `wait` is computed from the elapsed time read before the restart. So a call fails on a negative `wait` timeout when any check, on entry or after a wake, restarts a window that has run for more than a full interval. A restart at exactly one interval passes 0, which Java's `wait` treats as no timeout at all.

## Model

| member | source | states |
|---|---|---|
| RateWindow.MillisOfOne | src/main/java/org/example/CrptApi.java:31 | The window length is one unit in whole milliseconds. It is zero exactly for the two sub-millisecond units, and a whole number of seconds for every unit from seconds up. |
| RateWindow.Construct | src/main/java/org/example/CrptApi.java:28-34 | A new client starts with count 0 and a window that starts at the construction-time clock reading. It keeps the limit unvalidated. The capacity invariant holds from the start exactly when the limit is not negative. |
| RateWindow.Recheck | src/main/java/org/example/CrptApi.java:44-61 | The expiry rule used on entry and after every wake. An expired window restarts at count 0 with the fresh reading as its start. Otherwise nothing changes. The caller leaves the loop exactly when the count is below the limit. The wait timeout is the interval minus the time elapsed before any restart. It is positive whenever the limit is positive, and at most the interval when the clock has not gone backwards. A zero-length window restarts on every check under such a clock. With a limit of zero or less, a check that restarted the window still waits, with a timeout of at most zero. The capacity invariant is preserved. |
| RateWindow.Admit | src/main/java/org/example/CrptApi.java:73-77 | A delivered body adds exactly one to the count. A failed send changes nothing. The window start never changes. Admitting under the limit keeps the count within the limit, so the Java `int` never wraps. |
| CrptApi.Synchronized | src/main/java/org/example/CrptApi.java:42-83 | The synchronized block keeps every promise collected in `Honours`. It keeps the capacity invariant. With a positive limit, every wait timeout is positive and none is rejected. With a limit of zero or less, the block never reaches the send. A blocked call has used up every wake and stands at or above the limit. Once the guard passes, the call responds exactly when the send returns a body, and the response carries that body. A send failure is raised with the send's own fault. The send is reached only with the count below the limit, and a response leaves the count within the limit. A wait that ends in an interrupt is the one whose wake is an interrupt, and every earlier wait was followed by a normal wake and another check. Every recorded timeout before the last is non-negative, and the call fails on a negative timeout exactly when the last recorded timeout is negative. A response raises the count by exactly one over the window it was admitted in. Any other ending leaves the count as the last check left it. |
| CrptApi.CreateDocument | src/main/java/org/example/CrptApi.java:37-85 | An import-flagged document fails with the import error before any clock reading is used. It leaves the window untouched and records no `wait` timeouts. Every call, import-flagged or not, keeps the promises of the synchronized block (`Honours`): the invariant, positive timeouts under a positive limit, no send under a non-positive limit, a response exactly when the send returns a body and carrying that body, the send's fault on failure, a send only below the limit, an interrupt only where the wakes hold one, a negative-timeout failure exactly when the last recorded timeout is negative, and exactly one increment per response and none otherwise. A response never comes from an import-flagged document. |
| Interleaving.Step | src/main/java/org/example/CrptApi.java:44-77 | One locked turn. Its count is the count the check left plus one if the turn delivered. A turn reaches the send exactly when the count the check left is below the limit. It delivers exactly when it reaches the send and the send returns a body. The window start moves only on a restart, and then to the fresh reading. The invariant is preserved. |
| Interleaving.RunKeepsInv | src/main/java/org/example/CrptApi.java:52-76 | In any interleaving of callers, every window reached satisfies `0 <= count <= limit`. |
| Interleaving.CountAcross | src/main/java/org/example/CrptApi.java:48-76 | Between two turns with no restart in between, the count rises by exactly the number of documents delivered. |
| Interleaving.WindowCapacity | src/main/java/org/example/CrptApi.java:47-76 | From a restart up to the next restart, at most `limit` documents are delivered, whatever the interleaving. |
| Interleaving.FirstWindowCapacity | src/main/java/org/example/CrptApi.java:30-76 | Before the first restart, the initial count plus the documents delivered never exceeds the limit. |
| Interleaving.ResetTimeMonotone | src/main/java/org/example/CrptApi.java:44-60 | Under a non-decreasing clock, the window start never moves backwards. It never runs ahead of the latest clock reading or falls behind the initial start. |
| Interleaving.NonPositiveLimitNeverSends | src/main/java/org/example/CrptApi.java:52-76 | With a limit of zero or less and a non-negative count, no turn of any interleaving reaches the send, so none delivers a document. |
| SoloCaller.SoloCallIsRun | src/main/java/org/example/CrptApi.java:42-77 | For any limit, a lone caller's call is the run of its own turns cut after its last check (`Tracks`). Only that last turn can reach the send. It reaches the send exactly when the call does, and delivers exactly when the call returns a response. The call leaves the window that turn leaves. A call that neither sends nor fails on a negative timeout takes every turn its wakes offer. |
| SoloCaller.SoloCallWaits | src/main/java/org/example/CrptApi.java:44-61 | Every timeout a lone caller hands to `wait` is the one its own check computed (`TimedBy`). The k-th recorded timeout belongs to the k-th turn. It is the interval minus the time elapsed, at that turn's clock reading, since the start of the window the turn began from. There are never more recorded timeouts than turns. |

## Left out

- HTTP and JSON (lines 64-74): the request building, the headers, the `Signature` value and `JsonUtil.toJson` are network and library code. They are one input, `Transmit`, that yields a body or a fault (serialization, a `Signature` value the request builder rejects, I/O, or interruption). The `signature` argument feeds only this step, so the model drops it.
- Document wire layout (lines 88-157): the Jackson field names and order are library-driven. `Document` keeps only the import flag.
- Monitor semantics: real blocking, spurious wake-ups and the missing `notify` are not modelled. A wake is any later clock tick or an interrupt. Liveness and eventual admission depend on the scheduler and the real clock, so they are not stated.
- `Instant.now()`: the clock is an input. The only fact assumed about it is a non-decreasing order (`ClockOrdered`), and only for `ResetTimeMonotone`. The wall clock can in fact step backwards.
- Java `long` arithmetic on timestamps and on `timeIntervalMillis - timePassed` is modelled as unbounded integers. Overflow would need readings about 292 million years apart.
- Interrupted waits and import refusals do not appear as turns in the interleaving view, because neither touches the window.
- `main` (lines 166-176) and the `HttpClient` built by the constructor are left out.
- Cancellation, deadlines, refunds and constructor validation are not modelled, because the code has none of them.

=== FILE: crpt_api.dfy ===
/**
 One `createDocument` call of the CRPT client, for a caller that is alone on the client:
 the import check outside the monitor, the entry check, any number of waits, and the
 admission. The clock is an input (one tick per check); a wake is either a fresh tick or
 an interrupt; the serialization and HTTP exchange is an input `Transmit`.
 */
module CrptApi {
  import opened RateWindow

  /** The document as far as the gate is concerned: only the import flag is inspected.
      The wire fields are serialized by the transmit step. */
  datatype Document = Document(importRequest: bool)

  /** How a wait ends: the caller gets the monitor back at a later clock tick, or the
      thread is interrupted while waiting. */
  datatype Wake = Woken(tick: Tick) | Interrupted

  /** The exceptions a call can raise. */
  datatype Failure =
    | ImportRequest          // the document is flagged as imported goods
    | WaitInterrupted        // the wait was interrupted (rethrown wrapped)
    | NegativeTimeout        // `wait` was given a negative timeout
    | TransmitFailed(fault: Fault)

  /** How a call ends: a response body, an exception, or still waiting with the given
      timeout when the wakes on offer run out. */
  datatype Outcome = Response(body: string) | Raised(failure: Failure) | Blocked(timeout: int)

  /** A call's result: the shared window afterwards, the outcome, and every timeout the
      call passed to `wait`, in order. */
  datatype Call = Call(window: Window, outcome: Outcome, waits: seq<int>)

  /** The outcome shows that the document went to the transmit step. */
  predicate ReachedSend(o: Outcome) {
    o.Response? || (o.Raised? && o.failure.TransmitFailed?)
  }

  /** The fresh clock readings a call can store as a window start. */
  function Stamps(tick: Tick, wakes: seq<Wake>): set<int> {
    {tick.stamp} + set k | 0 <= k < |wakes| && wakes[k].Woken? :: wakes[k].tick.stamp
  }

  /**
   What the synchronized block promises when it starts at a check of window `w` with clock
   reading `tick`, is offered `wakes` and the transmit step `t`, and ends as call `c`.
   */
  predicate Honours(cfg: Config, w: Window, tick: Tick, wakes: seq<Wake>, t: Transmit, c: Call) {
    // one wait per wake used, plus possibly one that no wake ended
    && |c.waits| <= |wakes| + 1
    // the capacity invariant is kept
    && (Inv(cfg, w) ==> Inv(cfg, c.window))
    // a positive limit never hands `wait` a timeout of zero or less
    && (cfg.limit > 0 ==> c.outcome != Raised(NegativeTimeout))
    && (cfg.limit > 0 ==> forall k :: 0 <= k < |c.waits| ==> c.waits[k] > 0)
    // a limit of zero or less never lets the document through
    && (cfg.limit <= 0 && 0 <= w.count ==> !ReachedSend(c.outcome))
    // a call still blocked has used every wake and stands at or above the limit
    && (c.outcome.Blocked? ==> c.window.count >= cfg.limit && |c.waits| == |wakes| + 1)
    // past the guard, the outcome is the transmit step's, and the count was below the limit
    && (ReachedSend(c.outcome) ==> (c.outcome.Response? <==> t.Delivered?))
    && (c.outcome.Response? ==> t == Delivered(c.outcome.body))
    && (c.outcome.Raised? && c.outcome.failure.TransmitFailed? ==> t == Broken(c.outcome.failure.fault))
    && (c.outcome.Raised? && c.outcome.failure.TransmitFailed? ==> c.window.count < cfg.limit)
    && (c.outcome.Response? ==> c.window.count <= cfg.limit)
    // an interrupt ends the wait whose wake is an interrupt; every earlier wait was woken
    && (c.outcome == Raised(WaitInterrupted) ==> 1 <= |c.waits| <= |wakes| && wakes[|c.waits| - 1] == Interrupted)
    && (forall k :: 0 <= k < |c.waits| - 1 && k < |wakes| ==> wakes[k].Woken?)
    // `wait` rejects exactly a negative last timeout; every earlier one was accepted
    && (c.outcome == Raised(NegativeTimeout) <==> |c.waits| > 0 && c.waits[|c.waits| - 1] < 0)
    && (forall k :: 0 <= k < |c.waits| - 1 ==> c.waits[k] >= 0)
    // a response adds one to the window it was admitted in; nothing else adds anything
    && (c.outcome.Response? ==>
          c.window == w.(count := w.count + 1)
          || (c.window.count == 1 && c.window.lastResetTime in Stamps(tick, wakes)))
    && (!c.outcome.Response? ==>
          c.window == w
          || (c.window.count == 0 && c.window.lastResetTime in Stamps(tick, wakes)))
  }

  /** A check that waits and is woken passes the promises of the block's next check on,
      with its own timeout recorded in front. */
  lemma Resumes(cfg: Config, w: Window, tick: Tick, wakes: seq<Wake>, t: Transmit, c': Call)
    requires Recheck(cfg, w, tick).decision.Wait? && Recheck(cfg, w, tick).decision.timeout >= 0
    requires |wakes| > 0 && wakes[0].Woken?
    requires Honours(cfg, Recheck(cfg, w, tick).window, wakes[0].tick, wakes[1..], t, c')
    ensures Honours(cfg, w, tick, wakes, t, c'.(waits := [Recheck(cfg, w, tick).decision.timeout] + c'.waits))
  {
  }

  /**
   The body of the synchronized block, starting at a check with clock reading `tick`:
   check; if the guard holds, wait and, once woken at the next tick, check again; once the
   guard is false, admit.
   */
  function Synchronized(cfg: Config, w: Window, tick: Tick, wakes: seq<Wake>, t: Transmit): (c: Call)
    decreases |wakes|
    ensures Honours(cfg, w, tick, wakes, t, c)
  {
    var g := Recheck(cfg, w, tick);
    match g.decision
    case Proceed =>
      var w' := Admit(cfg, g.window, t);
      var outcome := match t
        case Delivered(body) => Response(body)
        case Broken(fault) => Raised(TransmitFailed(fault));
      Call(w', outcome, [])
    case Wait(timeout) =>
      if timeout < 0 then
        Call(g.window, Raised(NegativeTimeout), [timeout])
      else if |wakes| == 0 then
        Call(g.window, Blocked(timeout), [timeout])
      else
        match wakes[0]
        case Interrupted =>
          Call(g.window, Raised(WaitInterrupted), [timeout])
        case Woken(next) =>
          var c := Synchronized(cfg, g.window, next, wakes[1..], t);
          Resumes(cfg, w, tick, wakes, t, c);
          c.(waits := [timeout] + c.waits)
  }

  /**
   `createDocument(document, signature)`: a document flagged as an import is refused
   before the clock is read or the window touched; otherwise the synchronized block runs
   from the entry tick. A returned response raises the count by exactly one over the
   window it was admitted in; every other ending leaves the count where the checks left it.
   */
  function CreateDocument(cfg: Config, w: Window, doc: Document, entry: Tick, wakes: seq<Wake>, t: Transmit): (c: Call)
    ensures doc.importRequest ==> c.window == w && c.outcome == Raised(ImportRequest) && c.waits == []
    ensures Honours(cfg, w, entry, wakes, t, c)
    ensures c.outcome.Response? ==> !doc.importRequest
  {
    if doc.importRequest then
      Call(w, Raised(ImportRequest), [])
    else
      Synchronized(cfg, w, entry, wakes, t)
  }
}

=== FILE: interleaving.dfy ===
/**
 Many callers on one client. The window is only read and written with the monitor held,
 and a caller gives the monitor up only inside `wait`, so every execution is a sequence of
 locked turns on the shared window, each by some caller: a check (on entry or after a wake)
 that either ends in a wait or goes on to admit and transmit. Any sequence of turns is a
 possible interleaving, whichever callers take them.
 */
module Interleaving {
  import opened RateWindow

  /** One locked turn: the clock tick read in it, and what the transmit step would produce
      if the turn gets past the guard. */
  datatype Event = Event(tick: Tick, transmit: Transmit)

  /** The window after a turn, whether the turn restarted the window, whether it got past
      the guard to the transmit step, and whether it delivered a document. */
  datatype Turn = Turn(window: Window, reset: bool, sent: bool, delivered: bool)

  /** One turn: the check, then either a wait (no further change) or an admission. */
  function Step(cfg: Config, w: Window, e: Event): (t: Turn)
    ensures t.reset <==> Expired(cfg, w, e.tick.now)
    ensures t.window.lastResetTime == if t.reset then e.tick.stamp else w.lastResetTime
    ensures t.window.count == (if t.reset then 0 else w.count) + (if t.delivered then 1 else 0)
    ensures t.sent <==> (if t.reset then 0 else w.count) < cfg.limit
    ensures t.delivered <==> t.sent && e.transmit.Delivered?
    ensures Inv(cfg, w) ==> Inv(cfg, t.window)
  {
    var g := Recheck(cfg, w, e.tick);
    match g.decision
    case Wait(_) => Turn(g.window, Expired(cfg, w, e.tick.now), false, false)
    case Proceed => Turn(Admit(cfg, g.window, e.transmit), Expired(cfg, w, e.tick.now), true, e.transmit.Delivered?)
  }

  /** The turns taken from window `w`, one per event, in order. */
  function Run(cfg: Config, w: Window, evs: seq<Event>): (ts: seq<Turn>)
    ensures |ts| == |evs|
    decreases |evs|
  {
    if |evs| == 0 then []
    else
      var t := Step(cfg, w, evs[0]);
      [t] + Run(cfg, t.window, evs[1..])
  }

  /** The number of turns that delivered a document. */
  function Admits(ts: seq<Turn>): nat {
    if |ts| == 0 then 0 else (if ts[0].delivered then 1 else 0) + Admits(ts[1..])
  }

  /** The clock never goes backwards: each turn's stored reading is at or after the one it
      measures from, each turn reads the clock at or after the previous turn's readings,
      and the first turn reads it at or after the start of the initial window. */
  predicate ClockOrdered(w: Window, evs: seq<Event>) {
    && (forall k :: 0 <= k < |evs| ==> evs[k].tick.now <= evs[k].tick.stamp)
    && (forall i, j :: 0 <= i < j < |evs| ==> evs[i].tick.stamp <= evs[j].tick.now)
    && (|evs| > 0 ==> w.lastResetTime <= evs[0].tick.now)
  }

  lemma AdmitsAppend(a: seq<Turn>, b: seq<Turn>)
    ensures Admits(a + b) == Admits(a) + Admits(b)
  {
    if |a| > 0 {
      assert (a + b)[1..] == a[1..] + b;
    } else {
      assert a + b == b;
    }
  }

  /** Every window a run passes through satisfies the capacity invariant. */
  lemma {:induction false} RunKeepsInv(cfg: Config, w: Window, evs: seq<Event>)
    requires Inv(cfg, w)
    ensures forall k :: 0 <= k < |evs| ==> Inv(cfg, Run(cfg, w, evs)[k].window)
    decreases |evs|
  {
    if |evs| > 0 {
      var t := Step(cfg, w, evs[0]);
      RunKeepsInv(cfg, t.window, evs[1..]);
      var ts := Run(cfg, w, evs);
      forall k | 0 <= k < |evs|
        ensures Inv(cfg, ts[k].window)
      {
        if k > 0 {
          assert ts[k] == Run(cfg, t.window, evs[1..])[k - 1];
        }
      }
    }
  }

  /** Turn `k + 1` is the step from the window turn `k` left. */
  lemma {:induction false} RunStep(cfg: Config, w: Window, evs: seq<Event>, k: nat)
    requires k + 1 < |evs|
    ensures Run(cfg, w, evs)[k + 1] == Step(cfg, Run(cfg, w, evs)[k].window, evs[k + 1])
    decreases k
  {
    var t := Step(cfg, w, evs[0]);
    var rest := Run(cfg, t.window, evs[1..]);
    assert Run(cfg, w, evs) == [t] + rest;
    if k > 0 {
      RunStep(cfg, t.window, evs[1..], k - 1);
    } else {
      assert rest[0] == Step(cfg, t.window, evs[1..][0]);
    }
  }

  lemma AdmitsLast(ts: seq<Turn>, i: nat, j: nat)
    requires i <= j < |ts|
    ensures Admits(ts[i..j + 1]) == Admits(ts[i..j]) + (if ts[j].delivered then 1 else 0)
  {
    assert ts[i..j + 1] == ts[i..j] + [ts[j]];
    AdmitsAppend(ts[i..j], [ts[j]]);
  }

  /** Without a restart in turns `i + 1 .. j` the count only rises, by one per delivered
      document. */
  lemma {:induction false} CountAcross(cfg: Config, w: Window, evs: seq<Event>, i: nat, j: nat)
    requires i <= j < |evs|
    requires forall k :: i < k <= j ==> !Run(cfg, w, evs)[k].reset
    ensures Run(cfg, w, evs)[j].window.count == Run(cfg, w, evs)[i].window.count + Admits(Run(cfg, w, evs)[i + 1..j + 1])
    decreases j - i
  {
    var ts := Run(cfg, w, evs);
    if j > i {
      CountAcross(cfg, w, evs, i, j - 1);
      RunStep(cfg, w, evs, j - 1);
      AdmitsLast(ts, i + 1, j);
    }
  }

  /**
   The capacity bound between two restarts: from a restart at turn `i` up to (not
   including) the next restart at or after turn `j`, at most `limit` documents are delivered.
   */
  lemma {:induction false} WindowCapacity(cfg: Config, w: Window, evs: seq<Event>, i: nat, j: nat)
    requires Inv(cfg, w)
    requires i < j <= |evs|
    requires Run(cfg, w, evs)[i].reset
    requires forall k :: i < k < j ==> !Run(cfg, w, evs)[k].reset
    ensures Admits(Run(cfg, w, evs)[i..j]) <= cfg.limit
  {
    var ts := Run(cfg, w, evs);
    RunKeepsInv(cfg, w, evs);
    CountAcross(cfg, w, evs, i, j - 1);
    if i == 0 {
      assert ts[0] == Step(cfg, w, evs[0]);
    } else {
      RunStep(cfg, w, evs, i - 1);
    }
    assert ts[i..j][1..] == ts[i + 1..j];
  }

  /** The capacity bound before the first restart: the documents delivered while the initial
      window lasts, added to its count, never exceed the limit. */
  lemma {:induction false} FirstWindowCapacity(cfg: Config, w: Window, evs: seq<Event>, j: nat)
    requires Inv(cfg, w)
    requires j <= |evs|
    requires forall k :: 0 <= k < j ==> !Run(cfg, w, evs)[k].reset
    ensures w.count + Admits(Run(cfg, w, evs)[..j]) <= cfg.limit
  {
    var ts := Run(cfg, w, evs);
    if j > 0 {
      RunKeepsInv(cfg, w, evs);
      CountAcross(cfg, w, evs, 0, j - 1);
      assert ts[0] == Step(cfg, w, evs[0]);
      assert ts[..j][1..] == ts[1..j];
    }
  }

  /** Under a clock that never goes backwards the window start never moves backwards, and
      it never runs ahead of the latest reading. */
  lemma {:induction false} ResetTimeMonotone(cfg: Config, w: Window, evs: seq<Event>)
    requires ClockOrdered(w, evs)
    ensures forall k :: 0 <= k < |evs| ==> w.lastResetTime <= Run(cfg, w, evs)[k].window.lastResetTime <= evs[k].tick.stamp
    ensures forall i, j :: 0 <= i <= j < |evs| ==>
              Run(cfg, w, evs)[i].window.lastResetTime <= Run(cfg, w, evs)[j].window.lastResetTime
    decreases |evs|
  {
    if |evs| > 0 {
      var ts := Run(cfg, w, evs);
      var t := Step(cfg, w, evs[0]);
      var rest := Run(cfg, t.window, evs[1..]);
      assert ts == [t] + rest;
      assert ClockOrdered(t.window, evs[1..]) by {
        if |evs| > 1 {
          assert evs[1..][0] == evs[1];
        }
        forall i, j | 0 <= i < j < |evs[1..]|
          ensures evs[1..][i].tick.stamp <= evs[1..][j].tick.now
        {
          assert evs[1..][i] == evs[i + 1] && evs[1..][j] == evs[j + 1];
        }
      }
      ResetTimeMonotone(cfg, t.window, evs[1..]);
      forall k | 0 <= k < |evs|
        ensures w.lastResetTime <= ts[k].window.lastResetTime <= evs[k].tick.stamp
      {
        if k > 0 {
          assert ts[k] == rest[k - 1];
          assert evs[k] == evs[1..][k - 1];
        }
      }
      forall i, j | 0 <= i <= j < |evs|
        ensures ts[i].window.lastResetTime <= ts[j].window.lastResetTime
      {
        if 0 < i {
          assert ts[i] == rest[i - 1] && ts[j] == rest[j - 1];
        } else if 0 < j {
          assert ts[j] == rest[j - 1];
        }
      }
    }
  }

  /** With a limit of zero or less and a count that starts non-negative, no turn of any
      interleaving gets past the guard: none reaches the transmit step, so none delivers. */
  lemma {:induction false} NonPositiveLimitNeverSends(cfg: Config, w: Window, evs: seq<Event>)
    requires cfg.limit <= 0 && 0 <= w.count
    ensures forall k :: 0 <= k < |evs| ==> !Run(cfg, w, evs)[k].sent && !Run(cfg, w, evs)[k].delivered
    decreases |evs|
  {
    if |evs| > 0 {
      var t := Step(cfg, w, evs[0]);
      NonPositiveLimitNeverSends(cfg, t.window, evs[1..]);
      var ts := Run(cfg, w, evs);
      forall k | 0 < k < |evs|
        ensures !ts[k].sent && !ts[k].delivered
      {
        assert ts[k] == Run(cfg, t.window, evs[1..])[k - 1];
      }
    }
  }
}

=== FILE: solo_caller.dfy ===
/**
 The two views of a call agree. A caller alone on the client, whose wakes are all fresh
 ticks until an interrupt, takes exactly the locked turns of the interleaving view over
 its own ticks: its checks are the first turns, it passes the guard only on its last one,
 and it leaves the window that turn leaves.
 */
module SoloCaller {
  import opened RateWindow
  import opened CrptApi
  import opened Interleaving

  /** The turns a lone caller can take: its entry tick, then one per wake up to the first
      interrupt. Every turn carries the call's own transmit step. */
  function CallEvents(entry: Tick, wakes: seq<Wake>, t: Transmit): (evs: seq<Event>)
    ensures 1 <= |evs| <= |wakes| + 1
    ensures evs[0] == Event(entry, t)
    decreases |wakes|
  {
    [Event(entry, t)] + (if |wakes| == 0 || wakes[0].Interrupted? then [] else CallEvents(wakes[0].tick, wakes[1..], t))
  }

  /** How many checks a call ran: one per wait, plus the final one that passed the guard. */
  function Checks(c: Call): nat {
    if ReachedSend(c.outcome) then |c.waits| + 1 else |c.waits|
  }

  /** The call and the turns `ts` are in step: the call ran one check per turn up to its
      last, only that last turn can reach the transmit step, it does so exactly when the call
      does and delivers exactly when the call responds, and the call leaves the window that
      turn leaves. A call that neither sends nor hits a negative timeout takes every turn. */
  predicate Tracks(c: Call, ts: seq<Turn>) {
    && 1 <= Checks(c) <= |ts|
    && c.window == ts[Checks(c) - 1].window
    && (ReachedSend(c.outcome) <==> ts[Checks(c) - 1].sent)
    && (c.outcome.Response? <==> ts[Checks(c) - 1].delivered)
    && (forall k :: 0 <= k < Checks(c) - 1 ==> !ts[k].sent)
    && (!ReachedSend(c.outcome) && c.outcome != Raised(NegativeTimeout) ==> Checks(c) == |ts|)
  }

  /** The first check waited with a usable timeout and the caller was woken for another. */
  predicate Rewaits(cfg: Config, w: Window, entry: Tick, wakes: seq<Wake>) {
    var g := Recheck(cfg, w, entry);
    g.decision.Wait? && g.decision.timeout >= 0 && |wakes| > 0 && wakes[0].Woken?
  }

  /** A call whose first check waited, prefixed to the call made by its next check: the
      turn of the first check is prefixed to the turns of the rest. */
  lemma RunCons(c: Call, ts: seq<Turn>, c': Call, ts': seq<Turn>)
    requires |ts| >= 1 && ts == [ts[0]] + ts' && !ts[0].sent
    requires c.window == c'.window && c.outcome == c'.outcome && |c.waits| == |c'.waits| + 1
    requires Tracks(c', ts')
    ensures Tracks(c, ts)
  {
  }

  /** How a call and its turns unfold when the first check waits and the caller is woken:
      the call is the rest of the call with the first timeout in front, and the turns are
      the first check's turn, which does not reach the send, followed by the rest. */
  lemma WokenUnfolds(cfg: Config, w: Window, entry: Tick, wakes: seq<Wake>, t: Transmit)
    requires Rewaits(cfg, w, entry, wakes)
    ensures var g := Recheck(cfg, w, entry);
            var c' := Synchronized(cfg, g.window, wakes[0].tick, wakes[1..], t);
            var evs := CallEvents(entry, wakes, t);
            var t0 := Run(cfg, w, evs)[0];
            && Synchronized(cfg, w, entry, wakes, t) == c'.(waits := [g.decision.timeout] + c'.waits)
            && g.decision.timeout == Timeout(cfg, w, evs[0].tick)
            && evs[1..] == CallEvents(wakes[0].tick, wakes[1..], t)
            && t0 == Step(cfg, w, evs[0]) && t0.window == g.window && !t0.sent
            && Run(cfg, w, evs) == [t0] + Run(cfg, g.window, evs[1..])
  {
  }

  /** A call that stops at its first check is in step with its first turn. */
  lemma LastCheck(cfg: Config, w: Window, entry: Tick, wakes: seq<Wake>, t: Transmit)
    requires !Rewaits(cfg, w, entry, wakes)
    ensures Tracks(Synchronized(cfg, w, entry, wakes, t), Run(cfg, w, CallEvents(entry, wakes, t)))
  {
  }

  /**
   The synchronized block run by a lone caller is the run of its turns cut after its last
   check: that check is the only one that can pass the guard, it reaches the transmit step
   exactly when the call does, it delivers exactly when the call returns a response, and
   the window afterwards is the one that turn leaves. A call that neither sends nor hits a
   negative timeout takes every turn on offer: it stops only where its wakes stop.
   */
  lemma {:induction false} SoloCallIsRun(cfg: Config, w: Window, entry: Tick, wakes: seq<Wake>, t: Transmit)
    ensures Tracks(Synchronized(cfg, w, entry, wakes, t), Run(cfg, w, CallEvents(entry, wakes, t)))
    decreases |wakes|
  {
    var c := Synchronized(cfg, w, entry, wakes, t);
    var ts := Run(cfg, w, CallEvents(entry, wakes, t));
    if Rewaits(cfg, w, entry, wakes) {
      var g := Recheck(cfg, w, entry);
      WokenUnfolds(cfg, w, entry, wakes, t);
      SoloCallIsRun(cfg, g.window, wakes[0].tick, wakes[1..], t);
      RunCons(c, ts, Synchronized(cfg, g.window, wakes[0].tick, wakes[1..], t),
              Run(cfg, g.window, CallEvents(wakes[0].tick, wakes[1..], t)));
    } else {
      LastCheck(cfg, w, entry, wakes, t);
    }
  }

  /** The timeout a check from window `w` at `tick` hands to `wait`: the interval minus the
      time elapsed before any restart. */
  function Timeout(cfg: Config, w: Window, tick: Tick): int {
    cfg.intervalMillis - (tick.now - w.lastResetTime)
  }

  /** The window turn `k` starts from. */
  function Before(w: Window, ts: seq<Turn>, k: nat): Window
    requires k <= |ts|
  {
    if k == 0 then w else ts[k - 1].window
  }

  /** Each timeout `ws[k]` is the one the check of turn `k` computed: the interval minus the
      time elapsed, at that turn's tick, since the start of the window the turn began from. */
  predicate TimedBy(cfg: Config, w: Window, ws: seq<int>, evs: seq<Event>, ts: seq<Turn>) {
    && |ws| <= |ts| <= |evs|
    && forall k :: 0 <= k < |ws| ==> ws[k] == Timeout(cfg, Before(w, ts, k), evs[k].tick)
  }

  /** The timeouts of a call whose first check waited, then checked again from window `w1`:
      the first timeout is that check's own, and the rest are those of the later checks. */
  lemma WaitsCons(cfg: Config, w: Window, w1: Window, ws: seq<int>, evs: seq<Event>, ts: seq<Turn>,
                  ws': seq<int>, ts': seq<Turn>)
    requires |evs| >= 1 && |ts| == |evs| && ts == [ts[0]] + ts' && ts[0].window == w1
    requires ws == [Timeout(cfg, w, evs[0].tick)] + ws'
    requires TimedBy(cfg, w1, ws', evs[1..], ts')
    ensures TimedBy(cfg, w, ws, evs, ts)
  {
  }

  /**
   Every timeout a lone caller hands to `wait` is the one its own check computed: the k-th
   wait follows the k-th turn, and its timeout is the interval minus the time elapsed, at
   that turn's tick, since the start of the window the turn began from.
   */
  lemma {:induction false} SoloCallWaits(cfg: Config, w: Window, entry: Tick, wakes: seq<Wake>, t: Transmit)
    ensures var evs := CallEvents(entry, wakes, t);
            TimedBy(cfg, w, Synchronized(cfg, w, entry, wakes, t).waits, evs, Run(cfg, w, evs))
    decreases |wakes|
  {
    if Rewaits(cfg, w, entry, wakes) {
      var g := Recheck(cfg, w, entry);
      var evs := CallEvents(entry, wakes, t);
      SoloCallWaits(cfg, g.window, wakes[0].tick, wakes[1..], t);
      WokenUnfolds(cfg, w, entry, wakes, t);
      var c' := Synchronized(cfg, g.window, wakes[0].tick, wakes[1..], t);
      WaitsCons(cfg, w, g.window, Synchronized(cfg, w, entry, wakes, t).waits, evs, Run(cfg, w, evs),
                c'.waits, Run(cfg, g.window, evs[1..]));
    }
  }
}

=== FILE: window.dfy ===
/**
 The shared admission state of the CRPT client: a fixed window that admits at most
 `limit` document submissions, restarted by whichever caller first observes that the
 window has run out.

 All of it lives under the client's monitor, so every function here is one atomic
 piece of a call: the expiry check plus the loop guard (run on entry and again after
 every wake), and the admission that counts a delivered document.
 */
module RateWindow {

  const MinInt32: int := -0x8000_0000
  const MaxInt32: int := 0x7fff_ffff

  /** A Java `int`. */
  type Int32 = x: int | MinInt32 <= x <= MaxInt32

  /** The `java.util.concurrent.TimeUnit` the client is constructed with. */
  datatype TimeUnit = Nanoseconds | Microseconds | Milliseconds | Seconds | Minutes | Hours | Days

  /** `unit.toMillis(1)`: one unit in whole milliseconds, truncated toward zero. */
  function MillisOfOne(unit: TimeUnit): (ms: nat)
    ensures ms == 0 <==> unit == Nanoseconds || unit == Microseconds
    ensures ms != 0 ==> unit == Milliseconds || ms % 1000 == 0
  {
    match unit
    case Nanoseconds => 0
    case Microseconds => 0
    case Milliseconds => 1
    case Seconds => 1000
    case Minutes => 60 * 1000
    case Hours => 60 * 60 * 1000
    case Days => 24 * 60 * 60 * 1000
  }

  /** The immutable configuration: the window length and the admissions allowed per window.
      The limit is whatever `int` the caller passed; nothing validates it. */
  datatype Config = Config(intervalMillis: nat, limit: Int32)

  /** The guarded pair: when the current window started (epoch milliseconds) and how many
      documents have been delivered in it. */
  datatype Window = Window(lastResetTime: int, count: int)

  /** The client after construction. */
  datatype Client = Client(cfg: Config, window: Window)

  /** The capacity invariant: the count never leaves `[0, limit]`. */
  predicate Inv(cfg: Config, w: Window) {
    0 <= w.count <= cfg.limit
  }

  /** The constructor: the window starts empty at the construction-time clock reading `now`.
      The invariant holds from the start exactly when the limit is not negative. */
  function Construct(unit: TimeUnit, limit: Int32, now: int): (c: Client)
    ensures c.window.count == 0 && c.window.lastResetTime == now
    ensures c.cfg.limit == limit
    ensures c.cfg.intervalMillis == MillisOfOne(unit)
    ensures Inv(c.cfg, c.window) <==> limit >= 0
  {
    Client(Config(MillisOfOne(unit), limit), Window(now, 0))
  }

  /** Two clock readings taken inside one locked segment: `now` is the reading from which
      the elapsed time is computed, `stamp` the separate, later reading that becomes the new
      window start if the window is restarted. */
  datatype Tick = Tick(now: int, stamp: int)

  /** A window has run out once a full interval has elapsed since it started. */
  predicate Expired(cfg: Config, w: Window, now: int) {
    now - w.lastResetTime >= cfg.intervalMillis
  }

  /** What a caller does at the end of a check: leave the loop, or wait `timeout` ms. */
  datatype Decision = Proceed | Wait(timeout: int)

  /** The window after a check, and the caller's decision. */
  datatype Gate = Gate(window: Window, decision: Decision)

  /**
   The check run with the monitor held, on entry and identically after every wake:
   compute the elapsed time, restart the window if it ran out, then test the loop guard.
   The wait timeout is computed from the elapsed time observed BEFORE any restart.
   */
  function Recheck(cfg: Config, w: Window, tick: Tick): (g: Gate)
    ensures Expired(cfg, w, tick.now) ==> g.window.count == 0 && g.window.lastResetTime == tick.stamp
    ensures !Expired(cfg, w, tick.now) ==> g.window == w
    ensures g.decision.Proceed? <==> g.window.count < cfg.limit
    ensures g.decision.Wait? ==> g.decision.timeout == cfg.intervalMillis - (tick.now - w.lastResetTime)
    ensures Inv(cfg, w) ==> Inv(cfg, g.window)
    ensures cfg.limit > 0 && g.decision.Wait? ==> g.decision.timeout > 0
    ensures w.lastResetTime <= tick.now && g.decision.Wait? ==> g.decision.timeout <= cfg.intervalMillis
    // a zero-length window (a sub-millisecond unit) restarts on every check
    ensures cfg.intervalMillis == 0 && w.lastResetTime <= tick.now ==> g.window == Window(tick.stamp, 0)
    // a non-positive limit still waits after a restart, with a timeout of at most zero
    ensures cfg.limit <= 0 && Expired(cfg, w, tick.now) ==> g.decision.Wait? && g.decision.timeout <= 0
  {
    var timePassed := tick.now - w.lastResetTime;
    var w' := if timePassed >= cfg.intervalMillis then Window(tick.stamp, 0) else w;
    if w'.count >= cfg.limit then Gate(w', Wait(cfg.intervalMillis - timePassed)) else Gate(w', Proceed)
  }

  /** Why building, serializing or sending the request failed. */
  datatype Fault =
    | SerializationFailed    // the document could not be written as JSON
    | InvalidSignature       // the request builder rejected the `Signature` header value
    | IoFailed               // the HTTP exchange failed
    | SendInterrupted        // the thread was interrupted during the exchange

  /** The serialization and HTTP exchange, seen from the gate: the response body, or a fault. */
  datatype Transmit = Delivered(body: string) | Broken(fault: Fault)

  /**
   The admission once the loop guard is false: the document is sent and, only if a body
   came back, the count goes up by one. Reached only with `count < limit`, so the count
   stays within the invariant and cannot wrap around the Java `int` range.
   */
  function Admit(cfg: Config, w: Window, t: Transmit): (w': Window)
    ensures w'.lastResetTime == w.lastResetTime
    ensures t.Delivered? ==> w'.count == w.count + 1
    ensures t.Broken? ==> w' == w
    ensures Inv(cfg, w) && w.count < cfg.limit ==> Inv(cfg, w') && w'.count <= MaxInt32
  {
    match t
    case Delivered(_) => w.(count := w.count + 1)
    case Broken(_) => w
  }
}
